=== FILE: README.md ===
# Dynamic-sampling rules: reorder model

A Dafny model of the reorder logic behind the dynamic-sampling rules table
of Sentry's project settings page. Two React components carry it:

- the **rules table** (`rules/index.tsx`) tags the owner's rules with
  positional ids (`String(index)`), checks a reported move against the
  ordering policy (a TRACE rule may not be dropped on a TRANSACTION rule,
  nor the reverse), stores the reordered rules and hands them back to the
  owner without ids; it also remembers the open/closed value last reported
  by any row's menu, and that value disables dragging;
- the **drag list** (`rules/draggableList/index.tsx`) remembers the id of
  the item being dragged and, at drag end, reports
  `{activeIndex, overIndex, reorderedItems: arrayMove(items, activeIndex, overIndex)}`
  when the drop position differs from the start position.

Both are modelled as pure functions over explicit state:

| module | file | what |
|---|---|---|
| `Results` | results.dfy | `Option` and `Result` |
| `Seqs` | seqs.dfy | `indexOf`, distinctness, remove/insert at a position |
| `Decimal` | decimal.dfy | `String(n)` for a natural number, with a parser proving it injective |
| `DndSortable` | dnd_sortable.dfy | the assumed behaviour of `arrayMove` from `@dnd-kit/sortable` |
| `DraggableList` | draggable_list.dfy | drag state, `onDragStart` / `onDragEnd` / `onDragCancel` |
| `Rules` | rules.dfy | rules state, `getRules`, `handleUpdateRules`, `handleUpdateRulesParent`, the menu flag |
| `RulesDrop` | rules_drop.dfy | the two components wired together (items are the rule ids, `onUpdateItems` is `handleUpdateRules`) |

Modelling choices that follow the code:

- A rule's type is `Trace`, `Transaction` or `Other` (the rest of the
  enum plays no part); the other fields are an opaque `Payload`.
- Indices are typed `string` in `UpdateItemsProps` but are the numbers
  returned by `indexOf`; they are `int` here, and -1 means "not found".
- `rules[i]` outside the list is `undefined` and reading its `type`
  throws; this is the `TypeError(i)` failure rather than a precondition.
  Because `&&` short-circuits, the rule at `overIndex` is read only when
  the dragged rule is TRACE (first check) or TRANSACTION (second check).
- `activeId ? getIndex(activeId) : -1` uses JavaScript truthiness, so an
  empty id counts as no active id.
- The second error message keeps the code's spelling
  ("Individual transactionsrules cannot be above Transaction traces rules").
- An accepted move leaves the table holding the reordered rules with their
  old ids; new positional ids appear only when the owner passes a new list
  back and `getRules` runs again.

Two consequences of the code worth stating: dragging a TRACE rule onto a
TRANSACTION rule is refused with the "cannot be under" message (the first
check, `rules/index.tsx` lines 63-71), and a drop on the start position or
on nothing emits no update at all (`draggableList/index.tsx` lines 62-64).

## Model

| member | source | states |
|---|---|---|
| Seqs.IndexOf | src/sentry/static/sentry/app/views/settings/project/filtersAndSampling/rules/draggableList/index.tsx:47 | `indexOf` returns the first position holding the value, or -1 exactly when the value is absent |
| Decimal.NatToString | src/sentry/static/sentry/app/views/settings/project/filtersAndSampling/rules/index.tsx:92 | `String(index)` is a non-empty string of decimal digits without a leading zero |
| Decimal.ParseNatToString | src/sentry/static/sentry/app/views/settings/project/filtersAndSampling/rules/index.tsx:92 | reading the decimal digits of `String(n)` back gives `n` |
| Decimal.NatToStringInjective | src/sentry/static/sentry/app/views/settings/project/filtersAndSampling/rules/index.tsx:92 | two positions get the same id string exactly when they are the same position |
| DndSortable.ArrayMove | src/sentry/static/sentry/app/views/settings/project/filtersAndSampling/rules/draggableList/index.tsx:68 | assumed behaviour of `arrayMove`: same length and elements, the moved element lands at `to`, and the others keep their relative order |
| DndSortable.ArrayMoveShift | src/sentry/static/sentry/app/views/settings/project/filtersAndSampling/rules/draggableList/index.tsx:68 | elements outside the span between `from` and `to` stay put; those inside shift one step towards `from` |
| DndSortable.ArrayMoveSame | src/sentry/static/sentry/app/views/settings/project/filtersAndSampling/rules/draggableList/index.tsx:68 | a move from a position to itself changes nothing |
| DndSortable.ArrayMoveInverse | src/sentry/static/sentry/app/views/settings/project/filtersAndSampling/rules/draggableList/index.tsx:68 | moving back from `to` to `from` undoes a move |
| DraggableList.HandleChangeActive | src/sentry/static/sentry/app/views/settings/project/filtersAndSampling/rules/draggableList/index.tsx:31-33 | the remembered active id becomes exactly the given one |
| DraggableList.ActiveIndex | src/sentry/static/sentry/app/views/settings/project/filtersAndSampling/rules/draggableList/index.tsx:47-48 | -1 when there is no (truthy) active id or it is not listed, otherwise the first position of the active id |
| DraggableList.OnDragStart | src/sentry/static/sentry/app/views/settings/project/filtersAndSampling/rules/draggableList/index.tsx:52-58 | with an active item its id replaces any earlier active id; without one the state is unchanged |
| DraggableList.MoveItems | src/sentry/static/sentry/app/views/settings/project/filtersAndSampling/rules/draggableList/index.tsx:68 | the reordered items exist exactly when both positions are inside the list, and are then a permutation with the dragged item at the drop position and every other item in its original relative order |
| DraggableList.OnDragEnd | src/sentry/static/sentry/app/views/settings/project/filtersAndSampling/rules/draggableList/index.tsx:59-72 | the active id is always cleared; an update is emitted exactly when a drop target exists and its position differs from the active position, carrying both positions and the moved items |
| DraggableList.OnDragCancel | src/sentry/static/sentry/app/views/settings/project/filtersAndSampling/rules/draggableList/index.tsx:73 | the active id is cleared (and, as a state-only transition, nothing is emitted) |
| DraggableList.ActiveIndexDistinct | src/sentry/static/sentry/app/views/settings/project/filtersAndSampling/rules/draggableList/index.tsx:47-48 | in a list without duplicates the active index is the dragged item's own position |
| DraggableList.DragEndEmitsMove | src/sentry/static/sentry/app/views/settings/project/filtersAndSampling/rules/draggableList/index.tsx:59-72 | in a list without duplicates, dropping the item at `from` on the item at `to` emits exactly that move |
| DraggableList.DropOutsideEmits | src/sentry/static/sentry/app/views/settings/project/filtersAndSampling/rules/draggableList/index.tsx:62-71 | a drop target not in the list still emits an update with overIndex -1 whenever the dragged item is listed |
| DraggableList.RunActive | src/sentry/static/sentry/app/views/settings/project/filtersAndSampling/rules/draggableList/index.tsx:52-73 | after any sequence of start, end and cancel notifications the active id is the one set by the last start with an item since the last end or cancel |
| DraggableList.RunUpdatesNeedEnd | src/sentry/static/sentry/app/views/settings/project/filtersAndSampling/rules/draggableList/index.tsx:59-73 | a sequence of notifications without a drag end emits no update |
| Rules.GetRules | src/sentry/static/sentry/app/views/settings/project/filtersAndSampling/rules/index.tsx:90-94 | the table takes the owner's rules in order, each keeping its fields, the rule at position i carrying id `String(i)`, ids pairwise distinct, and keeps the menu flag |
| Rules.WithIds | src/sentry/static/sentry/app/views/settings/project/filtersAndSampling/rules/index.tsx:92 | the tagged list has the owner's rules in order, the rule at position i carrying the id `String(i)` |
| Rules.IdsDistinct | src/sentry/static/sentry/app/views/settings/project/filtersAndSampling/rules/index.tsx:92 | positional ids never collide |
| Rules.StripWithIds | src/sentry/static/sentry/app/views/settings/project/filtersAndSampling/rules/index.tsx:45-51 | stripping the ids of freshly tagged rules gives the owner's list back in its order |
| Rules.HandleUpdateRulesParent | src/sentry/static/sentry/app/views/settings/project/filtersAndSampling/rules/index.tsx:45-51 | the owner receives the stored rules in stored order, each without its id |
| Rules.Find | src/sentry/static/sentry/app/views/settings/project/filtersAndSampling/rules/index.tsx:60 | `find` yields no rule exactly when no rule carries the id, otherwise the first stored rule carrying it |
| Rules.ReorderRules | src/sentry/static/sentry/app/views/settings/project/filtersAndSampling/rules/index.tsx:59-61 | each resulting rule is the first stored rule carrying its id, and that id was reported; ids no rule carries only shorten the result |
| Rules.ReorderRulesAllFound | src/sentry/static/sentry/app/views/settings/project/filtersAndSampling/rules/index.tsx:59-61 | when every reported id is carried by some rule, nothing is dropped: the result's ids are the reported ids in order |
| Rules.TypeAt | src/sentry/static/sentry/app/views/settings/project/filtersAndSampling/rules/index.tsx:64-65 | reading a type succeeds exactly for a position inside the list and throws otherwise |
| Rules.HandleUpdateRules | src/sentry/static/sentry/app/views/settings/project/filtersAndSampling/rules/index.tsx:53-84 | "cannot be under" exactly for TRACE on TRANSACTION, "cannot be above" exactly for TRANSACTION on TRACE, a thrown error exactly when an index it reads is outside the list, `MoveUnspecified` only when the move carries no specified item list, and on acceptance the stored rules are the reported ids mapped to rules, menu flag kept |
| Rules.NotCrossingNotRejected | src/sentry/static/sentry/app/views/settings/project/filtersAndSampling/rules/index.tsx:63-83 | only the two rules at the reported positions are inspected: same type, or any pair involving another type, is accepted |
| Rules.ReorderRulesAppend | src/sentry/static/sentry/app/views/settings/project/filtersAndSampling/rules/index.tsx:59-61 | mapping ids to rules distributes over concatenating id lists |
| Rules.ReorderRulesPermutation | src/sentry/static/sentry/app/views/settings/project/filtersAndSampling/rules/index.tsx:59-61 | permuting the reported ids permutes the resulting rules |
| Rules.FindStored | src/sentry/static/sentry/app/views/settings/project/filtersAndSampling/rules/index.tsx:60 | with distinct ids, looking up a stored rule's id finds that very rule |
| Rules.ReorderRulesIds | src/sentry/static/sentry/app/views/settings/project/filtersAndSampling/rules/index.tsx:59-61 | with distinct ids, mapping the ids of stored rules back to rules rebuilds exactly those rules |
| Rules.AcceptedIsPermutation | src/sentry/static/sentry/app/views/settings/project/filtersAndSampling/rules/index.tsx:59-83 | when the reported ids are a permutation of the current distinct ids, an accepted list is a permutation of the current rules |
| Rules.HandleChangeMenuActions | src/sentry/static/sentry/app/views/settings/project/filtersAndSampling/rules/index.tsx:86-88 | the menu flag takes the reported value and the rules are untouched |
| Rules.ReportMenusLast | src/sentry/static/sentry/app/views/settings/project/filtersAndSampling/rules/index.tsx:86-107 | dragging is disabled exactly when the `disabled` prop is set or the last row report said a menu is open |
| Rules.DragDisabled | src/sentry/static/sentry/app/views/settings/project/filtersAndSampling/rules/index.tsx:107 | the drag list is disabled when the `disabled` prop is set, when a row menu is open, and in no other case |
| RulesDrop.IdsArrayMove | src/sentry/static/sentry/app/views/settings/project/filtersAndSampling/rules/draggableList/index.tsx:68 | moving rules and then listing their ids is moving the ids |
| RulesDrop.StripIdsArrayMove | src/sentry/static/sentry/app/views/settings/project/filtersAndSampling/rules/index.tsx:49 | moving rules and then stripping ids is moving the stripped rules |
| RulesDrop.AcceptRearrangement | src/sentry/static/sentry/app/views/settings/project/filtersAndSampling/rules/index.tsx:59-83 | accepting the ids of a rearrangement of the stored rules stores exactly that rearrangement |
| RulesDrop.Drop | src/sentry/static/sentry/app/views/settings/project/filtersAndSampling/rules/index.tsx:109-110 | a drag end through `handleUpdateRules`: the drag state is cleared, the table changes only together with a call to the owner, which gets the new table without ids, a refused or failed move calls nobody, and a drop on nothing changes nothing else |
| RulesDrop.DropMoves | src/sentry/static/sentry/app/views/settings/project/filtersAndSampling/rules/index.tsx:53-84 | a drop that does not cross the TRACE/TRANSACTION boundary stores `arrayMove` of the rules, passes the owner `arrayMove` of its rules, and clears the drag state |
| RulesDrop.DropAfterGetRules | src/sentry/static/sentry/app/views/settings/project/filtersAndSampling/rules/index.tsx:90-110 | after `getRules`, dragging the rule at `from` onto the rule at `to` hands the owner its own list with that one rule moved |
| RulesDrop.DropAcrossBoundary | src/sentry/static/sentry/app/views/settings/project/filtersAndSampling/rules/index.tsx:63-81 | a drop across the boundary is refused with the message for its direction, the table unchanged and the owner not called |
| RulesDrop.DropNowhere | src/sentry/static/sentry/app/views/settings/project/filtersAndSampling/rules/draggableList/index.tsx:62-71 | without a drop target, or dropped at its start position, nothing but the drag state changes |
| RulesDrop.DropOutsideList | src/sentry/static/sentry/app/views/settings/project/filtersAndSampling/rules/index.tsx:63-81 | a drop on an id not in the list reaches the check with position -1: it throws for a TRACE or TRANSACTION rule and otherwise passes the check |
| RulesDrop.DropWithoutActive | src/sentry/static/sentry/app/views/settings/project/filtersAndSampling/rules/index.tsx:64 | a drop with no active id onto a listed rule throws reading `rules[-1]` |
| RulesDrop.TraceOntoTransactionScenario | src/sentry/static/sentry/app/views/settings/project/filtersAndSampling/rules/index.tsx:63-71 | rules A (trace), B (trace), C (transaction): dragging A onto C is refused with "cannot be under" |
| RulesDrop.TransactionOntoTransactionScenario | src/sentry/static/sentry/app/views/settings/project/filtersAndSampling/rules/index.tsx:59-83 | rules A (trace), B (transaction), C (transaction): dragging C onto B gives the owner A, C, B |

## Left out

- `arrayMove` of `@dnd-kit/sortable`: its code is not part of this model; `DndSortable.ArrayMove` states its assumed behaviour, and only for positions inside the list.
- DraggableList.MoveItems: yields `None` when a position is -1, because `arrayMove` is not specified outside the list; `Rules.HandleUpdateRules` then reports `MoveUnspecified` where the code would store the ids of whatever `arrayMove` returned.
- Rules.HandleUpdateRules: does not model what happens after the thrown `TypeError` beyond "no state change, owner not called"; error propagation through React is out of scope.
- The drag library's sensors and collision detection, which choose the active and the over item, and the effect of `disabled` on whether a drag can start.
- Rendering: the styled table, the drag overlay portal, `renderItem`, and the row component with its menu toggle (the toggle's reports are the input of `Rules.ReportMenus`).
- `addErrorMessage` and `t()`: a refusal is an error value carrying the message text.
- React timing: asynchronous `setState` and its callback, the re-run of `getRules` when the owner's list changes identity, and the render-time capture of `activeIndex` are modelled as sequential steps over explicit state.

=== FILE: decimal.dfy ===
/**
 * JavaScript's `String(n)` for a non-negative integer: its decimal digits,
 * most significant first, with no leading zero.
 */
module Decimal {

  predicate IsDigit(c: char) {
    '0' <= c <= '9'
  }

  function DigitChar(d: int): (c: char)
    requires 0 <= d < 10
    ensures IsDigit(c)
  {
    (d + '0' as int) as char
  }

  function DigitValue(c: char): (d: int)
    requires IsDigit(c)
    ensures 0 <= d < 10
  {
    c as int - '0' as int
  }

  /** The decimal rendering of `n`. */
  function NatToString(n: nat): (s: string)
    ensures |s| >= 1
    ensures forall k :: 0 <= k < |s| ==> IsDigit(s[k])
    ensures |s| > 1 ==> s[0] != '0'
    ensures n < 10 <==> |s| == 1
  {
    if n < 10 then [DigitChar(n)]
    else NatToString(n / 10) + [DigitChar(n % 10)]
  }

  /** Reads a string of decimal digits back as a number. */
  function ParseDecimal(s: string): nat
    requires forall k :: 0 <= k < |s| ==> IsDigit(s[k])
  {
    if |s| == 0 then 0
    else ParseDecimal(s[..|s| - 1]) * 10 + DigitValue(s[|s| - 1])
  }

  /** Parsing undoes rendering. */
  lemma {:induction false} ParseNatToString(n: nat)
    ensures ParseDecimal(NatToString(n)) == n
  {
    if n >= 10 {
      var s := NatToString(n);
      assert s[..|s| - 1] == NatToString(n / 10);
      ParseNatToString(n / 10);
    }
  }

  /** Different numbers render as different strings. */
  lemma NatToStringInjective(m: nat, n: nat)
    ensures NatToString(m) == NatToString(n) <==> m == n
  {
    if NatToString(m) == NatToString(n) {
      ParseNatToString(m);
      ParseNatToString(n);
    }
  }
}

=== FILE: dnd_sortable.dfy ===
/**
 * `arrayMove(items, from, to)` of the `@dnd-kit/sortable` package. Its body
 * is not part of this model: the definition below is the behaviour the
 * drag list relies on (take the element out at `from`, put it back at `to`)
 * and is an assumption about the library, stated only for positions inside
 * the list.
 */
module DndSortable {
  import opened Seqs

  function ArrayMove<T>(items: seq<T>, from: int, to: int): (r: seq<T>)
    requires 0 <= from < |items|
    requires 0 <= to < |items|
    ensures |r| == |items|
    ensures r[to] == items[from]
    ensures multiset(r) == multiset(items)
    ensures Remove(r, to) == Remove(items, from)
  {
    InsertRemoveMultiset(items, from, to);
    var r := Insert(Remove(items, from), to, items[from]);
    assert Remove(r, to) == Remove(items, from);
    r
  }

  /**
   * Position by position: elements outside the span between `from` and
   * `to` stay put, and those inside it shift one step towards `from`.
   */
  lemma ArrayMoveShift<T>(items: seq<T>, from: int, to: int, k: int)
    requires 0 <= from < |items|
    requires 0 <= to < |items|
    requires 0 <= k < |items|
    ensures k == to ==> ArrayMove(items, from, to)[k] == items[from]
    ensures k < from && k < to ==> ArrayMove(items, from, to)[k] == items[k]
    ensures k > from && k > to ==> ArrayMove(items, from, to)[k] == items[k]
    ensures from <= k < to ==> ArrayMove(items, from, to)[k] == items[k + 1]
    ensures to < k <= from ==> ArrayMove(items, from, to)[k] == items[k - 1]
  {
  }

  /** Moving from a position to itself changes nothing. */
  lemma ArrayMoveSame<T>(items: seq<T>, i: int)
    requires 0 <= i < |items|
    ensures ArrayMove(items, i, i) == items
  {
    InsertRemove(items, i);
  }

  /** Moving back from `to` to `from` undoes a move. */
  lemma ArrayMoveInverse<T>(items: seq<T>, from: int, to: int)
    requires 0 <= from < |items|
    requires 0 <= to < |items|
    ensures ArrayMove(ArrayMove(items, from, to), to, from) == items
  {
    var r := ArrayMove(items, from, to);
    calc {
      ArrayMove(r, to, from);
      Insert(Remove(r, to), from, r[to]);
      Insert(Remove(items, from), from, items[from]);
      { InsertRemove(items, from); }
      items;
    }
  }
}

=== FILE: draggable_list.dfy ===
/**
 * The sortable list component: it remembers which item is being dragged and,
 * when a drag ends over an item at another position, reports the move to its
 * owner through `onUpdateItems`.
 */
module DraggableList {
  import opened Results
  import opened Seqs
  import opened DndSortable

  /**
   * What `onUpdateItems` receives. `reorderedItems` is `arrayMove(items,
   * activeIndex, overIndex)` when both positions lie inside the list and
   * `None` otherwise, because `arrayMove` is specified only for positions
   * inside the list.
   */
  datatype UpdateItems = UpdateItems(
    activeIndex: int,
    overIndex: int,
    reorderedItems: Option<seq<string>>)

  /** The component state: the id of the item being dragged, if any. */
  datatype DragState = DragState(activeId: Option<string>)

  const Initial := DragState(None)

  /** `handleChangeActive`: replaces the remembered id. */
  function HandleChangeActive(s: DragState, activeId: Option<string>): (s': DragState)
    ensures s'.activeId == activeId
  {
    s.(activeId := activeId)
  }

  /** JavaScript truthiness of an optional string: present and non-empty. */
  predicate Truthy(id: Option<string>) {
    id.Some? && id.value != ""
  }

  /**
   * `activeIndex` as derived at render time: -1 without a (truthy) active
   * id, otherwise the first position of the active id in `items`.
   */
  function ActiveIndex(items: seq<string>, s: DragState): (k: int)
    ensures -1 <= k < |items|
    ensures k == -1 <==> !Truthy(s.activeId) || s.activeId.value !in items
    ensures 0 <= k ==> items[k] == s.activeId.value
    ensures 0 <= k ==> forall j :: 0 <= j < k ==> items[j] != s.activeId.value
  {
    if Truthy(s.activeId) then IndexOf(items, s.activeId.value) else -1
  }

  /**
   * `onDragStart`: with an active item its id becomes the active id,
   * replacing any earlier one; without one nothing changes.
   */
  function OnDragStart(s: DragState, active: Option<string>): (s': DragState)
    ensures active.None? ==> s' == s
    ensures active.Some? ==> s'.activeId == active
  {
    match active
    case None => s
    case Some(id) => HandleChangeActive(s, Some(id))
  }

  /** `arrayMove` where it is specified. */
  function MoveItems(items: seq<string>, activeIndex: int, overIndex: int): (r: Option<seq<string>>)
    ensures r.Some? <==> 0 <= activeIndex < |items| && 0 <= overIndex < |items|
    ensures r.Some? ==> multiset(r.value) == multiset(items)
    ensures r.Some? ==> |r.value| == |items| && r.value[overIndex] == items[activeIndex]
    ensures r.Some? ==> Remove(r.value, overIndex) == Remove(items, activeIndex)
  {
    if 0 <= activeIndex < |items| && 0 <= overIndex < |items|
    then Some(ArrayMove(items, activeIndex, overIndex))
    else None
  }

  /**
   * `onDragEnd`: the active id is cleared whatever the drop target; an
   * update is emitted exactly when there is a drop target whose position
   * (-1 if it is not in `items`) differs from the active position.
   */
  function OnDragEnd(s: DragState, items: seq<string>, over: Option<string>)
    : (out: (DragState, Option<UpdateItems>))
    ensures out.0.activeId.None?
    ensures out.1.Some? <==>
              over.Some? && ActiveIndex(items, s) != IndexOf(items, over.value)
    ensures out.1.Some? ==>
              && out.1.value.activeIndex == ActiveIndex(items, s)
              && out.1.value.overIndex == IndexOf(items, over.value)
              && out.1.value.reorderedItems
                 == MoveItems(items, ActiveIndex(items, s), IndexOf(items, over.value))
  {
    var activeIndex := ActiveIndex(items, s);
    var s' := HandleChangeActive(s, None);
    match over
    case None => (s', None)
    case Some(overId) =>
      var overIndex := IndexOf(items, overId);
      if activeIndex != overIndex
      then (s', Some(UpdateItems(activeIndex, overIndex, MoveItems(items, activeIndex, overIndex))))
      else (s', None)
  }

  /** In a list without duplicates, the active item is found at its own position. */
  lemma ActiveIndexDistinct(items: seq<string>, d: DragState, i: int)
    requires Distinct(items)
    requires 0 <= i < |items| && items[i] != ""
    requires d.activeId == Some(items[i])
    ensures ActiveIndex(items, d) == i
  {
  }

  /**
   * In a list without duplicates, ending a drag of the item at `from` over
   * the item at `to` emits exactly that move.
   */
  lemma DragEndEmitsMove(d: DragState, items: seq<string>, from: int, to: int)
    requires Distinct(items)
    requires 0 <= from < |items| && 0 <= to < |items| && from != to
    requires items[from] != ""
    requires d.activeId == Some(items[from])
    ensures OnDragEnd(d, items, Some(items[to]))
            == (DragState(None), Some(UpdateItems(from, to, Some(ArrayMove(items, from, to)))))
  {
  }

  /**
   * A drop target that is not in the list still produces an update, with
   * position -1, whenever the dragged item is in the list.
   */
  lemma DropOutsideEmits(s: DragState, items: seq<string>, overId: string)
    requires overId !in items
    requires 0 <= ActiveIndex(items, s)
    ensures OnDragEnd(s, items, Some(overId)).1 == Some(UpdateItems(ActiveIndex(items, s), -1, None))
  {
  }

  /** `onDragCancel`: clears the active id and emits nothing. */
  function OnDragCancel(s: DragState): (s': DragState)
    ensures s'.activeId.None?
  {
    HandleChangeActive(s, None)
  }

  /** The notifications the drag library delivers. */
  datatype DragEvent = Start(active: Option<string>) | End(over: Option<string>) | Cancel

  /** One notification: the next state and the update emitted, if any. */
  function Step(s: DragState, items: seq<string>, e: DragEvent): (DragState, Option<UpdateItems>)
  {
    match e
    case Start(active) => (OnDragStart(s, active), None)
    case End(over) => OnDragEnd(s, items, over)
    case Cancel => (OnDragCancel(s), None)
  }

  /** A run of notifications over a fixed list: final state and all updates, in order. */
  function Run(s: DragState, items: seq<string>, events: seq<DragEvent>)
    : (DragState, seq<UpdateItems>)
    decreases |events|
  {
    if |events| == 0 then (s, [])
    else
      var (s1, u) := Step(s, items, events[0]);
      var (s2, us) := Run(s1, items, events[1..]);
      (s2, (if u.Some? then [u.value] else []) + us)
  }

  /** The active id after a run: cleared by an end or a cancel, set by the last start that had an item. */
  function LastActive(s: DragState, events: seq<DragEvent>): Option<string>
    decreases |events|
  {
    if |events| == 0 then s.activeId
    else
      var e := events[|events| - 1];
      match e
      case Start(active) => if active.Some? then active else LastActive(s, events[..|events| - 1])
      case End(_) => None
      case Cancel => None
  }

  /** The drag state after a run of notifications is described by `LastActive`. */
  lemma {:induction false} RunActive(s: DragState, items: seq<string>, events: seq<DragEvent>)
    ensures Run(s, items, events).0.activeId == LastActive(s, events)
    decreases |events|
  {
    if |events| > 0 {
      var s1 := Step(s, items, events[0]).0;
      RunActive(s1, items, events[1..]);
      if |events| == 1 {
      } else {
        var rest := events[1..];
        assert rest[..|rest| - 1] == events[..|events| - 1][1..];
        LastActiveFront(s, items, events[..|events| - 1]);
        assert events[..|events| - 1][0] == events[0];
      }
    }
  }

  /** Peeling the first notification off the front of `LastActive`. */
  lemma {:induction false} LastActiveFront(s: DragState, items: seq<string>, events: seq<DragEvent>)
    requires |events| > 0
    ensures LastActive(Step(s, items, events[0]).0, events[1..]) == LastActive(s, events)
    decreases |events|
  {
    if |events| > 1 {
      var init := events[..|events| - 1];
      LastActiveFront(s, items, init);
      assert init[1..] == events[1..][..|events[1..]| - 1];
      assert init[0] == events[0];
    }
  }

  /** A run that emits updates contains a drag end. */
  lemma {:induction false} RunUpdatesNeedEnd(s: DragState, items: seq<string>, events: seq<DragEvent>)
    requires forall k :: 0 <= k < |events| ==> !events[k].End?
    ensures Run(s, items, events).1 == []
    decreases |events|
  {
    if |events| > 0 {
      RunUpdatesNeedEnd(Step(s, items, events[0]).0, items, events[1..]);
    }
  }
}

=== FILE: results.dfy ===
/** Optional values and failure-carrying results used across the model. */
module Results {

  /** A value that may be absent, as a JavaScript `undefined`-able value is. */
  datatype Option<+T> = None | Some(value: T)

  /** Either a successful value or an error value. */
  datatype Result<+T, +E> = Ok(value: T) | Err(error: E)
}

=== FILE: rules.dfy ===
/**
 * The rules table of the dynamic-sampling settings page. It keeps the
 * owner's rules tagged with positional ids, validates a reorder reported by
 * the drag list, and hands an accepted order back to the owner without ids.
 */
module Rules {
  import opened Results
  import opened Seqs
  import opened Decimal
  import opened DraggableList

  /**
   * A rule's category. Only the two categories the ordering check compares
   * are named; every other category is `Other`.
   */
  datatype RuleType = Trace | Transaction | Other

  /** The remaining fields of a rule (condition, sample rate, ...), never inspected here. */
  type Payload(==)

  datatype Rule = Rule(ruleType: RuleType, payload: Payload)

  /** A rule as the table stores it: the owner's rule plus a synthetic id. */
  datatype IdRule = IdRule(rule: Rule, id: string) {
    function ruleType(): RuleType { rule.ruleType }
  }

  /** The table's state. */
  datatype RulesState = RulesState(rules: seq<IdRule>, isAnyMenuActionsOpen: bool)

  const Initial := RulesState([], false)

  const UnderMessage := "Transaction traces rules cannot be under Individual transactions rules"

  const AboveMessage := "Individual transactionsrules cannot be above Transaction traces rules"

  /** Why `handleUpdateRules` did not accept a move. */
  datatype Failure =
    | Rejected(message: string)  // the ordering check refused it; the message is shown to the user
    | TypeError(index: int)      // `rules[index]` is undefined and reading its `type` throws
    | MoveUnspecified            // accepted, but the ids come from `arrayMove` outside the list

  /** The ids in list order, as handed to the drag list. */
  function Ids(rules: seq<IdRule>): (ids: seq<string>)
    ensures |ids| == |rules|
    ensures forall i :: 0 <= i < |rules| ==> ids[i] == rules[i].id
  {
    seq(|rules|, i requires 0 <= i < |rules| => rules[i].id)
  }

  /** The owner's rules tagged with their positions, `String(index)`. */
  function WithIds(rules: seq<Rule>): (r: seq<IdRule>)
    ensures |r| == |rules|
    ensures forall i :: 0 <= i < |rules| ==> r[i] == IdRule(rules[i], NatToString(i))
  {
    seq(|rules|, i requires 0 <= i < |rules| => IdRule(rules[i], NatToString(i)))
  }

  /** `getRules`: the state takes the owner's rules, tagged; the menu flag is kept. */
  function GetRules(s: RulesState, props: seq<Rule>): (s': RulesState)
    ensures s'.isAnyMenuActionsOpen == s.isAnyMenuActionsOpen
    ensures |s'.rules| == |props|
    ensures forall i :: 0 <= i < |props| ==> s'.rules[i].rule == props[i]
    ensures forall i :: 0 <= i < |props| ==> s'.rules[i].id == NatToString(i)
    ensures Distinct(Ids(s'.rules))
  {
    IdsDistinct(props);
    s.(rules := WithIds(props))
  }

  /** Positional ids never collide. */
  lemma IdsDistinct(props: seq<Rule>)
    ensures Distinct(Ids(WithIds(props)))
  {
    var ids := Ids(WithIds(props));
    forall i, j | 0 <= i < j < |ids|
      ensures ids[i] != ids[j]
    {
      NatToStringInjective(i, j);
    }
  }

  /** The rules without their ids, in the same order. */
  function StripIds(rules: seq<IdRule>): (r: seq<Rule>)
    ensures |r| == |rules|
    ensures forall i :: 0 <= i < |rules| ==> r[i] == rules[i].rule
  {
    seq(|rules|, i requires 0 <= i < |rules| => rules[i].rule)
  }

  /** `handleUpdateRulesParent`: what the owner's `onUpdateRules` receives. */
  function HandleUpdateRulesParent(s: RulesState): (r: seq<Rule>)
    ensures |r| == |s.rules|
    ensures forall i :: 0 <= i < |r| ==> r[i] == s.rules[i].rule
  {
    StripIds(s.rules)
  }

  /** Tagging and then stripping gives the owner back its own list. */
  lemma StripWithIds(props: seq<Rule>)
    ensures StripIds(WithIds(props)) == props
  {
  }

  /** `rules.find(rule => rule.id === id)`: the first rule carrying `id`. */
  function Find(rules: seq<IdRule>, id: string): (r: Option<IdRule>)
    ensures r.None? <==> id !in Ids(rules)
    ensures r.Some? ==> r.value in rules && r.value.id == id
    ensures r.Some? ==>
              exists k :: 0 <= k < |rules| && r.value == rules[k]
                          && forall m :: 0 <= m < k ==> rules[m].id != id
  {
    var k := IndexOf(Ids(rules), id);
    if k == -1 then None else Some(rules[k])
  }

  /**
   * The ids, in order, each replaced by the first rule carrying it; ids
   * that no rule carries are dropped.
   */
  function ReorderRules(rules: seq<IdRule>, ruleIds: seq<string>): (r: seq<IdRule>)
    ensures |r| <= |ruleIds|
    ensures forall k :: 0 <= k < |r| ==> r[k] in rules && r[k].id in ruleIds
    ensures forall k :: 0 <= k < |r| ==> Find(rules, r[k].id) == Some(r[k])
    decreases |ruleIds|
  {
    if |ruleIds| == 0 then []
    else
      var rest := ReorderRules(rules, ruleIds[1..]);
      match Find(rules, ruleIds[0])
      case None => rest
      case Some(rule) => [rule] + rest
  }

  /**
   * When every reported id is carried by some rule, nothing is dropped:
   * the result's ids are the reported ids, in order.
   */
  lemma {:induction false} ReorderRulesAllFound(rules: seq<IdRule>, ruleIds: seq<string>)
    requires forall k :: 0 <= k < |ruleIds| ==> ruleIds[k] in Ids(rules)
    ensures Ids(ReorderRules(rules, ruleIds)) == ruleIds
    decreases |ruleIds|
  {
    if |ruleIds| > 0 {
      var rest := ReorderRules(rules, ruleIds[1..]);
      ReorderRulesAllFound(rules, ruleIds[1..]);
      var r := ReorderRules(rules, ruleIds);
      assert r == [Find(rules, ruleIds[0]).value] + rest;
      assert Ids(r) == [ruleIds[0]] + Ids(rest);
    }
  }

  /** The type at position `i`, or the exception reading it throws. */
  function TypeAt(rules: seq<IdRule>, i: int): (r: Result<RuleType, Failure>)
    ensures r.Ok? <==> 0 <= i < |rules|
    ensures r.Ok? ==> r.value == rules[i].ruleType()
    ensures r.Err? ==> r.error == TypeError(i)
  {
    if 0 <= i < |rules| then Ok(rules[i].ruleType()) else Err(TypeError(i))
  }

  /**
   * `handleUpdateRules`. The two checks are evaluated as written, with
   * `&&` short-circuiting: the rule at `overIndex` is read only when the
   * rule at `activeIndex` is a TRACE rule (first check) or a TRANSACTION
   * rule (second check).
   */
  function HandleUpdateRules(s: RulesState, u: UpdateItems): (r: Result<RulesState, Failure>)
    ensures r == Err(Rejected(UnderMessage)) <==>
              && 0 <= u.activeIndex < |s.rules| && 0 <= u.overIndex < |s.rules|
              && s.rules[u.activeIndex].ruleType() == Trace
              && s.rules[u.overIndex].ruleType() == Transaction
    ensures r == Err(Rejected(AboveMessage)) <==>
              && 0 <= u.activeIndex < |s.rules| && 0 <= u.overIndex < |s.rules|
              && s.rules[u.activeIndex].ruleType() == Transaction
              && s.rules[u.overIndex].ruleType() == Trace
    ensures (r.Err? && r.error.Rejected?) <==> CrossesBoundary(s.rules, u.activeIndex, u.overIndex)
    ensures (r.Err? && r.error.TypeError?) <==>
              || !(0 <= u.activeIndex < |s.rules|)
              || (&& s.rules[u.activeIndex].ruleType() != Other
                  && !(0 <= u.overIndex < |s.rules|))
    ensures r == Err(MoveUnspecified) ==> u.reorderedItems.None?
    ensures r.Ok? ==>
              && u.reorderedItems.Some?
              && r.value.rules == ReorderRules(s.rules, u.reorderedItems.value)
              && r.value.isAnyMenuActionsOpen == s.isAnyMenuActionsOpen
  {
    var rules := s.rules;
    match TypeAt(rules, u.activeIndex)
    case Err(e) => Err(e)
    case Ok(active) =>
      if active == Trace && TypeAt(rules, u.overIndex).Err? then Err(TypeError(u.overIndex))
      else if active == Trace && TypeAt(rules, u.overIndex).value == Transaction then
        Err(Rejected(UnderMessage))
      else if active == Transaction && TypeAt(rules, u.overIndex).Err? then Err(TypeError(u.overIndex))
      else if active == Transaction && TypeAt(rules, u.overIndex).value == Trace then
        Err(Rejected(AboveMessage))
      else match u.reorderedItems
        case None => Err(MoveUnspecified)
        case Some(ruleIds) => Ok(s.(rules := ReorderRules(rules, ruleIds)))
  }

  /** Both positions hold rules and the move is across the TRACE/TRANSACTION boundary. */
  predicate CrossesBoundary(rules: seq<IdRule>, activeIndex: int, overIndex: int) {
    && 0 <= activeIndex < |rules|
    && 0 <= overIndex < |rules|
    && ((rules[activeIndex].ruleType() == Trace && rules[overIndex].ruleType() == Transaction)
        || (rules[activeIndex].ruleType() == Transaction && rules[overIndex].ruleType() == Trace))
  }

  /** `handleChangeMenuActions`: the flag takes the value the row reported. */
  function HandleChangeMenuActions(s: RulesState, isOpen: bool): (s': RulesState)
    ensures s'.rules == s.rules
    ensures s'.isAnyMenuActionsOpen == isOpen
  {
    s.(isAnyMenuActionsOpen := isOpen)
  }

  /** The `disabled` flag handed to the drag list. */
  function DragDisabled(disabled: bool, s: RulesState): (r: bool)
    ensures disabled ==> r
    ensures s.isAnyMenuActionsOpen ==> r
    ensures r ==> disabled || s.isAnyMenuActionsOpen
  {
    disabled || s.isAnyMenuActionsOpen
  }

  /** A series of menu open/close reports from the rows, in order. */
  function ReportMenus(s: RulesState, reports: seq<bool>): (s': RulesState)
    ensures s'.rules == s.rules
    decreases |reports|
  {
    if |reports| == 0 then s
    else ReportMenus(HandleChangeMenuActions(s, reports[0]), reports[1..])
  }

  /**
   * Only the two rules at the dragged and target positions are looked at:
   * when both exist and the pair is not TRACE/TRANSACTION in either order
   * (same type, or any `Other` rule), the move is not refused.
   */
  lemma NotCrossingNotRejected(s: RulesState, u: UpdateItems)
    requires 0 <= u.activeIndex < |s.rules| && 0 <= u.overIndex < |s.rules|
    requires || s.rules[u.activeIndex].ruleType() == s.rules[u.overIndex].ruleType()
             || s.rules[u.activeIndex].ruleType() == Other
             || s.rules[u.overIndex].ruleType() == Other
    ensures u.reorderedItems.Some? ==>
              HandleUpdateRules(s, u) == Ok(s.(rules := ReorderRules(s.rules, u.reorderedItems.value)))
  {
  }

  /** Reordering distributes over concatenation of the id list. */
  lemma {:induction false} ReorderRulesAppend(rules: seq<IdRule>, a: seq<string>, b: seq<string>)
    ensures ReorderRules(rules, a + b) == ReorderRules(rules, a) + ReorderRules(rules, b)
    decreases |a|
  {
    if |a| > 0 {
      assert (a + b)[1..] == a[1..] + b;
      assert (a + b)[0] == a[0];
      ReorderRulesAppend(rules, a[1..], b);
    } else {
      assert a + b == b;
    }
  }

  /** Permuting the id list permutes the reordered rules. */
  lemma {:induction false} ReorderRulesPermutation(rules: seq<IdRule>, a: seq<string>, b: seq<string>)
    requires multiset(a) == multiset(b)
    ensures multiset(ReorderRules(rules, a)) == multiset(ReorderRules(rules, b))
    decreases |a|
  {
    if |a| == 0 {
      assert |b| == |multiset(b)| == 0;
    } else {
      var x := a[0];
      assert x in multiset(b);
      var j := IndexOf(b, x);
      var b' := b[..j] + b[j + 1..];
      assert b == b[..j] + [x] + b[j + 1..];
      assert a == [x] + a[1..];
      calc {
        multiset(a[1..]);
        multiset(a) - multiset{x};
        multiset(b) - multiset{x};
        multiset(b[..j]) + multiset{x} + multiset(b[j + 1..]) - multiset{x};
        multiset(b');
      }
      ReorderRulesPermutation(rules, a[1..], b');
      ReorderRulesAppend(rules, [x], a[1..]);
      ReorderRulesAppend(rules, b[..j], [x]);
      ReorderRulesAppend(rules, b[..j] + [x], b[j + 1..]);
      ReorderRulesAppend(rules, b[..j], b[j + 1..]);
    }
  }

  /** With distinct ids, looking up the id of a stored rule finds that rule. */
  lemma FindStored(rules: seq<IdRule>, x: IdRule)
    requires Distinct(Ids(rules))
    requires x in rules
    ensures Find(rules, x.id) == Some(x)
  {
    var i :| 0 <= i < |rules| && rules[i] == x;
    IndexOfDistinct(Ids(rules), i);
  }

  /**
   * With distinct ids, reordering by the ids of any list of stored rules
   * rebuilds exactly that list.
   */
  lemma {:induction false} ReorderRulesIds(rules: seq<IdRule>, xs: seq<IdRule>)
    requires Distinct(Ids(rules))
    requires forall k :: 0 <= k < |xs| ==> xs[k] in rules
    ensures ReorderRules(rules, Ids(xs)) == xs
    decreases |xs|
  {
    if |xs| > 0 {
      assert Ids(xs)[1..] == Ids(xs[1..]);
      FindStored(rules, xs[0]);
      ReorderRulesIds(rules, xs[1..]);
    }
  }

  /**
   * When the reported ids are a permutation of the current, distinct ids,
   * the accepted list is a permutation of the current rules.
   */
  lemma AcceptedIsPermutation(s: RulesState, u: UpdateItems)
    requires Distinct(Ids(s.rules))
    requires u.reorderedItems.Some? && multiset(u.reorderedItems.value) == multiset(Ids(s.rules))
    requires HandleUpdateRules(s, u).Ok?
    ensures multiset(HandleUpdateRules(s, u).value.rules) == multiset(s.rules)
  {
    ReorderRulesPermutation(s.rules, u.reorderedItems.value, Ids(s.rules));
    ReorderRulesIds(s.rules, s.rules);
  }

  /**
   * Dragging is disabled exactly when the `disabled` prop is set or the
   * last row to report said its menu is open; with no report the flag is
   * unchanged.
   */
  lemma {:induction false} ReportMenusLast(disabled: bool, s: RulesState, reports: seq<bool>)
    ensures |reports| == 0 ==> ReportMenus(s, reports) == s
    ensures |reports| > 0 ==>
              (DragDisabled(disabled, ReportMenus(s, reports)) <==> disabled || reports[|reports| - 1])
    decreases |reports|
  {
    if |reports| > 1 {
      ReportMenusLast(disabled, HandleChangeMenuActions(s, reports[0]), reports[1..]);
    }
  }
}

=== FILE: rules_drop.dfy ===
/**
 * The rules table and its drag list wired together: the list's items are
 * the rule ids in order, and its `onUpdateItems` is the table's
 * `handleUpdateRules`. A drop is followed from the drag list's `onDragEnd`
 * through the ordering check to what the owner receives.
 */
module RulesDrop {
  import opened Results
  import opened Seqs
  import opened Decimal
  import opened DndSortable
  import opened DraggableList
  import opened Rules

  /** Everything a drop changes or emits. */
  datatype DropOutcome = DropOutcome(
    table: RulesState,
    drag: DragState,
    onUpdateRules: Option<seq<Rule>>,
    error: Option<Failure>)

  /** The drag list's items: the rule ids in table order. */
  function Items(s: RulesState): seq<string> {
    Ids(s.rules)
  }

  /**
   * The drag list's `onDragEnd`, with any update handed to
   * `handleUpdateRules`. The drag state is always cleared; the table changes
   * only together with a call to the owner, which receives the new table
   * without ids; a refused or failed move leaves the table as it was.
   */
  function Drop(s: RulesState, d: DragState, over: Option<string>): (out: DropOutcome)
    ensures out.drag.activeId.None?
    ensures out.onUpdateRules.None? ==> out.table == s
    ensures out.onUpdateRules.Some? ==> out.onUpdateRules.value == StripIds(out.table.rules)
    ensures out.error.Some? ==> out.onUpdateRules.None?
    ensures out.table.isAnyMenuActionsOpen == s.isAnyMenuActionsOpen
    ensures over.None? ==> out == DropOutcome(s, DragState(None), None, None)
  {
    var (d', update) := OnDragEnd(d, Items(s), over);
    match update
    case None => DropOutcome(s, d', None, None)
    case Some(u) =>
      match HandleUpdateRules(s, u)
      case Err(e) => DropOutcome(s, d', None, Some(e))
      case Ok(s') => DropOutcome(s', d', Some(HandleUpdateRulesParent(s')), None)
  }

  /** Moving rules and then taking their ids is moving the ids. */
  lemma IdsArrayMove(rules: seq<IdRule>, from: int, to: int)
    requires 0 <= from < |rules| && 0 <= to < |rules|
    ensures Ids(ArrayMove(rules, from, to)) == ArrayMove(Ids(rules), from, to)
  {
  }

  /** Moving rules and then stripping their ids is moving the stripped rules. */
  lemma StripIdsArrayMove(rules: seq<IdRule>, from: int, to: int)
    requires 0 <= from < |rules| && 0 <= to < |rules|
    ensures StripIds(ArrayMove(rules, from, to)) == ArrayMove(StripIds(rules), from, to)
  {
  }

  /**
   * `handleUpdateRules` accepting ids that are those of a rearrangement of
   * the stored rules stores exactly that rearrangement.
   */
  lemma AcceptRearrangement(s: RulesState, from: int, to: int, moved: seq<IdRule>)
    requires Distinct(Ids(s.rules))
    requires 0 <= from < |s.rules| && 0 <= to < |s.rules|
    requires !CrossesBoundary(s.rules, from, to)
    requires multiset(moved) == multiset(s.rules)
    ensures HandleUpdateRules(s, UpdateItems(from, to, Some(Ids(moved)))) == Ok(s.(rules := moved))
  {
    var u := UpdateItems(from, to, Some(Ids(moved)));
    assert HandleUpdateRules(s, u) == Ok(s.(rules := ReorderRules(s.rules, Ids(moved)))) by {
      NotCrossingNotRejected(s, u);
    }
    assert forall k :: 0 <= k < |moved| ==> moved[k] in multiset(s.rules);
    ReorderRulesIds(s.rules, moved);
  }

  /**
   * A drop of the rule at `from` onto the rule at `to` that does not cross
   * the TRACE/TRANSACTION boundary, in a table whose ids are distinct and
   * non-empty: the table holds the rules moved by `arrayMove`, the owner
   * receives them without ids, and the drag state is cleared.
   */
  lemma DropMoves(s: RulesState, d: DragState, from: int, to: int)
    requires Distinct(Ids(s.rules))
    requires 0 <= from < |s.rules| && 0 <= to < |s.rules| && from != to
    requires s.rules[from].id != ""
    requires d.activeId == Some(s.rules[from].id)
    requires !CrossesBoundary(s.rules, from, to)
    ensures Drop(s, d, Some(s.rules[to].id)) == DropOutcome(
              s.(rules := ArrayMove(s.rules, from, to)),
              DragState(None),
              Some(ArrayMove(StripIds(s.rules), from, to)),
              None)
  {
    var items := Items(s);
    var moved := ArrayMove(s.rules, from, to);
    DragEndEmitsMove(d, items, from, to);
    IdsArrayMove(s.rules, from, to);
    AcceptRearrangement(s, from, to, moved);
    StripIdsArrayMove(s.rules, from, to);
  }

  /**
   * The same drop in a table freshly filled by `getRules`: the owner gets
   * back its own list with the rule at `from` moved to `to`.
   */
  lemma DropAfterGetRules(s0: RulesState, props: seq<Rule>, d: DragState, from: int, to: int)
    requires 0 <= from < |props| && 0 <= to < |props| && from != to
    requires d.activeId == Some(NatToString(from))
    requires !((props[from].ruleType == Trace && props[to].ruleType == Transaction)
               || (props[from].ruleType == Transaction && props[to].ruleType == Trace))
    ensures Drop(GetRules(s0, props), d, Some(NatToString(to))).onUpdateRules
            == Some(ArrayMove(props, from, to))
  {
    var s := GetRules(s0, props);
    assert s.rules == WithIds(props);
    StripWithIds(props);
    DropMoves(s, d, from, to);
  }

  /**
   * A drop across the TRACE/TRANSACTION boundary is refused with the
   * message for its direction; the table is unchanged and the owner is not
   * called.
   */
  lemma DropAcrossBoundary(s: RulesState, d: DragState, from: int, to: int)
    requires Distinct(Ids(s.rules))
    requires 0 <= from < |s.rules| && 0 <= to < |s.rules|
    requires s.rules[from].id != ""
    requires d.activeId == Some(s.rules[from].id)
    requires CrossesBoundary(s.rules, from, to)
    ensures Drop(s, d, Some(s.rules[to].id)) == DropOutcome(
              s,
              DragState(None),
              None,
              Some(Rejected(if s.rules[from].ruleType() == Trace then UnderMessage else AboveMessage)))
  {
    IndexOfDistinct(Items(s), from);
    IndexOfDistinct(Items(s), to);
  }

  /** Without a drop target, or dropped where it started, nothing but the drag state changes. */
  lemma DropNowhere(s: RulesState, d: DragState, over: Option<string>)
    requires over.None? || ActiveIndex(Items(s), d) == IndexOf(Items(s), over.value)
    ensures Drop(s, d, over) == DropOutcome(s, DragState(None), None, None)
  {
  }

  /**
   * The drag list's only guard is the inequality of positions: a drop on
   * an id the list does not hold still reaches `handleUpdateRules` with
   * position -1, which throws for a TRACE or TRANSACTION rule and otherwise
   * passes the check with an `arrayMove` the model does not specify.
   */
  lemma DropOutsideList(s: RulesState, d: DragState, overId: string)
    requires overId !in Items(s)
    requires 0 <= ActiveIndex(Items(s), d)
    ensures var a := ActiveIndex(Items(s), d);
            Drop(s, d, Some(overId)) == DropOutcome(
              s,
              DragState(None),
              None,
              Some(if s.rules[a].ruleType() == Other then MoveUnspecified else TypeError(-1)))
  {
  }

  /** A drop with no (truthy) active id onto a listed rule throws reading `rules[-1]`. */
  lemma DropWithoutActive(s: RulesState, d: DragState, overId: string)
    requires !Truthy(d.activeId)
    requires overId in Items(s)
    ensures Drop(s, d, Some(overId)) == DropOutcome(s, DragState(None), None, Some(TypeError(-1)))
  {
  }

  /**
   * Rules A (trace), B (trace), C (transaction); dragging A onto C is
   * refused with the "cannot be under" message.
   */
  lemma TraceOntoTransactionScenario(pa: Payload, pb: Payload, pc: Payload)
    ensures var props := [Rule(Trace, pa), Rule(Trace, pb), Rule(Transaction, pc)];
            var s := GetRules(Rules.Initial, props);
            var d := OnDragStart(DraggableList.Initial, Some("0"));
            Drop(s, d, Some("2")) == DropOutcome(s, DragState(None), None, Some(Rejected(UnderMessage)))
  {
    var props := [Rule(Trace, pa), Rule(Trace, pb), Rule(Transaction, pc)];
    var s := GetRules(Rules.Initial, props);
    assert NatToString(0) == "0" && NatToString(2) == "2";
    DropAcrossBoundary(s, OnDragStart(DraggableList.Initial, Some("0")), 0, 2);
  }

  /**
   * Rules A (trace), B (transaction), C (transaction); dragging C onto B
   * is accepted and the owner receives A, C, B.
   */
  lemma TransactionOntoTransactionScenario(pa: Payload, pb: Payload, pc: Payload)
    ensures var a, b, c := Rule(Trace, pa), Rule(Transaction, pb), Rule(Transaction, pc);
            var s := GetRules(Rules.Initial, [a, b, c]);
            var d := OnDragStart(DraggableList.Initial, Some("2"));
            Drop(s, d, Some("1")).onUpdateRules == Some([a, c, b])
  {
    var a, b, c := Rule(Trace, pa), Rule(Transaction, pb), Rule(Transaction, pc);
    var props := [a, b, c];
    var d := OnDragStart(DraggableList.Initial, Some("2"));
    assert d.activeId == Some(NatToString(2)) by {
      assert NatToString(2) == "2";
    }
    assert ArrayMove(props, 2, 1) == [a, c, b] by {
      assert Remove(props, 2) == [a, b];
    }
    assert NatToString(1) == "1";
    DropAfterGetRules(Rules.Initial, props, d, 2, 1);
  }
}

=== FILE: seqs.dfy ===
/** Sequence helpers shared by the drag list and the rules table. */
module Seqs {

  /** No element occurs twice. */
  predicate Distinct<T(==)>(s: seq<T>) {
    forall i, j :: 0 <= i < j < |s| ==> s[i] != s[j]
  }

  /**
   * `Array.prototype.indexOf`: the first position holding `x`, or -1 when
   * `x` does not occur.
   */
  function IndexOf<T(==)>(s: seq<T>, x: T): (k: int)
    ensures -1 <= k < |s|
    ensures k == -1 <==> x !in s
    ensures 0 <= k ==> s[k] == x && forall j :: 0 <= j < k ==> s[j] != x
  {
    if |s| == 0 then -1
    else if s[0] == x then 0
    else
      var k := IndexOf(s[1..], x);
      if k == -1 then -1 else k + 1
  }

  /** In a sequence without duplicates, the element at `i` is found at `i`. */
  lemma IndexOfDistinct<T>(s: seq<T>, i: int)
    requires Distinct(s)
    requires 0 <= i < |s|
    ensures IndexOf(s, s[i]) == i
  {
  }

  /** `s` without the element at position `i`. */
  function Remove<T>(s: seq<T>, i: int): (r: seq<T>)
    requires 0 <= i < |s|
    ensures |r| == |s| - 1
    ensures forall k :: 0 <= k < i ==> r[k] == s[k]
    ensures forall k :: i <= k < |r| ==> r[k] == s[k + 1]
  {
    s[..i] + s[i + 1..]
  }

  /** `s` with `x` placed at position `i`, later elements shifted right. */
  function Insert<T>(s: seq<T>, i: int, x: T): (r: seq<T>)
    requires 0 <= i <= |s|
    ensures |r| == |s| + 1
    ensures r[i] == x
    ensures forall k :: 0 <= k < i ==> r[k] == s[k]
    ensures forall k :: i < k < |r| ==> r[k] == s[k - 1]
  {
    s[..i] + [x] + s[i..]
  }

  /** Putting an element back where it was removed restores the sequence. */
  lemma InsertRemove<T>(s: seq<T>, i: int)
    requires 0 <= i < |s|
    ensures Insert(Remove(s, i), i, s[i]) == s
  {
  }

  /** Removing an element and inserting it elsewhere keeps the multiset. */
  lemma InsertRemoveMultiset<T>(s: seq<T>, i: int, j: int)
    requires 0 <= i < |s|
    requires 0 <= j < |s|
    ensures multiset(Insert(Remove(s, i), j, s[i])) == multiset(s)
  {
    var rest := Remove(s, i);
    assert s == s[..i] + [s[i]] + s[i + 1..];
    assert rest == s[..i] + s[i + 1..];
    assert rest == rest[..j] + rest[j..];
    calc {
      multiset(Insert(rest, j, s[i]));
      { assert Insert(rest, j, s[i]) == rest[..j] + [s[i]] + rest[j..]; }
      multiset(rest[..j]) + multiset([s[i]]) + multiset(rest[j..]);
      multiset(rest) + multiset([s[i]]);
      multiset(s[..i]) + multiset(s[i + 1..]) + multiset([s[i]]);
      multiset(s);
    }
  }
}
